=== FILE: README.md ===
# selectMe in Dafny

A model of the state machine inside the jQuery plugin `jquery.selectMe`, which
replaces a native `<select>` with a searchable dropdown list of checkboxes
(multiple mode) or radio buttons (single mode). The DOM is reduced to one
immutable record, `Widget.WidgetState`:

- `native`: every `<option>` of the select (including those inside an
  `<optgroup>`), each with its text, its optional `value` attribute and its
  selectedness;
- `items`: the rendered `<li>` items, each with a label, a value, `checked`,
  `visible` (its own display) and `selectedClass` (the class `selected`, which
  the filter tests and no code ever adds);
- `marked`: the item with class `selectme-marked`, if any. Because it is an
  `Option<nat>`, at most one item is marked after every event;
- `open`: the dropdown panel is displayed;
- `search`: the search field's text, or `None` when search is disabled;
- `placeholder`: the text of the placeholder button;
- `messages`: the `none` and `from` entries of the locale bundle.

Every event handler of the plugin becomes a pure function from state to
state. jQuery's `:visible` on an item means the item is displayed *and* the
dropdown holding it is open (`Widget.Shown`).

Modules, one per component: `Text` (lower-casing, `indexOf`, decimal
rendering of a count), `NativeSelect` (the select's children and the
write-back of a toggle), `Summary` (the summary formatter and placeholder
update), `Items` (parsing), `Filter` (the search filter), `Navigation`
(arrow-key marking), `Keys` (key codes and the printable-key classifier) and
`Widget` (the state and its handlers). `Wrappers` holds `Option`.

Two rules belong to the browser rather than to the plugin. The model states
them explicitly as assumptions:

- a click on an unchecked radio checks it and unchecks the other radios of
  its group (`Widget.ActivateInput`);
- setting `selected` on an option of a select without `multiple` deselects
  every other option (section 4.10.7 of the WHATWG HTML standard,
  `NativeSelect.SetSelected`).

Behaviour of the code worth knowing, which the model keeps:

- the filter's own comment (lib/jquery.selectMe.js:229) says selected items
  are not hidden, but it tests the class `selected`, which no code adds, so
  as written a checked item that does not match is hidden like the rest
  (`Filter.CheckedItemIsHiddenWhenNotMatching`). This is logged under
  "## Findings"; the widget's search uses the filter that spares the checked
  items (`Filter.CheckedItemsStayVisible`);
- filtering leaves the mark where it is, even on an item it hides
  (`Widget.SearchKeyUp` leaves `marked` alone);
- only direct `<option>` children become items; an `<optgroup>` child is
  skipped. Its options still count in the summary total, because
  `find('option')` searches all descendants;
- in single mode with nothing selected the summary is `undefined`, and
  `.text(undefined)` sets nothing, so the placeholder keeps its previous
  text;
- the input of an item sits inside its label, so any user click on an
  item, on the input or on its text, reaches the label's handler and marks
  the item (`Widget.ClickItem`); `Widget.ActivateInput` is the activation of
  the input alone, as select all and unselect all also drive it through
  its `change` handler.

## Model

| member | source | states |
|---|---|---|
| Text.IndexOfFrom | lib/jquery.selectMe.js:226 | the result is the first position at or after `from` where the query occurs, or -1 exactly when no such position exists |
| Text.IndexOf | lib/jquery.selectMe.js:226 | `indexOf(q) > -1` holds exactly when `q` is a substring of the text |
| Text.Lower | lib/jquery.selectMe.js:226 | `toLowerCase` restricted to ASCII letters (see Left out); used by `IndexOf` and `LabelMatches` |
| Text.ContainsEmpty | lib/jquery.selectMe.js:226 | the empty query is found at position 0 of every label |
| Text.NatToString | lib/jquery.selectMe.js:93 | a count renders as a non-empty string of decimal digits, with no leading zero except for 0 itself |
| Text.ParseNatToString | lib/jquery.selectMe.js:93 | reading the rendered count back gives the count |
| Text.LeadingDigitsStopAtSeparator | lib/jquery.selectMe.js:93 | a number followed by a space can be read from the start of the text |
| Text.TrailingDigitsStopAtSeparator | lib/jquery.selectMe.js:93 | a number preceded by a space can be read from the end of the text |
| NativeSelect.DirectOptions | lib/jquery.selectMe.js:244-255 | the direct `<option>` children of the select, in order, at most one per child; stated by `DirectOptionsAreOptionChildren` and `DirectOptionsAreFound` |
| NativeSelect.DirectOptionsAreOptionChildren | lib/jquery.selectMe.js:244-255 | every direct option comes from an `<option>` child, and every `<option>` child gives a direct option |
| NativeSelect.DirectOptionsAreFound | lib/jquery.selectMe.js:244-256 | every direct `<option>` child is among the options a descendant search finds, so there are at least as many of the latter |
| NativeSelect.Flatten | lib/jquery.selectMe.js:363-367 | every `<option>` the descendant search finds, those inside an `<optgroup>` included; related to the direct options by `DirectOptionsAreFound` |
| NativeSelect.EffectiveValue | lib/jquery.selectMe.js:248 | `.val()` of an option: its `value` attribute, or its text without one; `ValuelessOptionIsNotMirrored` shows the difference from the attribute |
| NativeSelect.SelectedLabelsFirst | lib/jquery.selectMe.js:362-365 | the first collected label is the label of the first selected option |
| NativeSelect.SelectedLabelsMembers | lib/jquery.selectMe.js:362-365 | every collected label belongs to a selected option, and every selected option contributes its label |
| NativeSelect.SelectedLabelsCount | lib/jquery.selectMe.js:362-365 | one label is collected per selected option: the number of labels is the number of selected options, which is at most the number of options and zero exactly when none is selected |
| NativeSelect.SelectedLabels | lib/jquery.selectMe.js:362-365 | the labels of `option:selected` in document order; its meaning is stated by `SelectedLabelsFirst`, `SelectedLabelsMembers` and `SelectedLabelsCount` |
| NativeSelect.CountSelected | lib/jquery.selectMe.js:91 | the number of selected options, tied to the collected labels by `SelectedLabelsCount` |
| NativeSelect.SetSelected | lib/jquery.selectMe.js:276 | the option takes the new selectedness and only selectedness changes; in a single select, selecting one option deselects all the others |
| NativeSelect.Propagate | lib/jquery.selectMe.js:276 | setting `selected` on the matched options in document order changes only selectedness: in multiple mode (or when deselecting) each match takes the value and nothing else changes; in single mode with no match nothing changes |
| NativeSelect.PropagateLastMatchWins | lib/jquery.selectMe.js:276 | in a single select, selecting the matches in document order leaves the last match as the only selected option |
| NativeSelect.MirrorAsWritten | lib/jquery.selectMe.js:276 | the write-back as written matches the `value` attribute only: in multiple mode (or when deselecting) every option whose attribute equals the item's value takes its checked state and nothing else changes; in single mode the last such option becomes the only selected one, and with no such option nothing changes |
| NativeSelect.Mirror | lib/jquery.selectMe.js:275-279 | the write-back as intended: every option whose `.val()` equals the item's value takes its checked state and every other option is unchanged (multiple mode); in single mode the last such option becomes the only selected one |
| NativeSelect.ValuelessOptionIsNotMirrored | lib/jquery.selectMe.js:248 | an option without a `value` attribute gives its item its text as value, yet the write-back as written never reaches it; the intended one selects it |
| NativeSelect.MirrorKeepsSingleSelection | lib/jquery.selectMe.js:270-276 | in a single select, selecting by value keeps at most one option selected |
| Summary.CountText | lib/jquery.selectMe.js:93 | the concatenation `count + ' ' + from + ' ' + total`; its meaning is stated by `CountTextDecodes` |
| Summary.CountTextDecodes | lib/jquery.selectMe.js:93 | the text `<count> <from> <total>` can be read back: it begins with a run of digits reading as the count, then exactly one space, the `from` word, exactly one space, and ends with a run of digits reading as the total, each run as long as the number's rendering, with nothing else in the text |
| Summary.SummaryText | lib/jquery.selectMe.js:89-99 | `getSummaryText`; its meaning is stated by `SummaryTextMeaning` |
| Summary.SummaryTextMeaning | lib/jquery.selectMe.js:89-99 | multiple mode: the `none` message when nothing is selected, otherwise the digits of the selected count, one space, the `from` word, one space and the digits of the total (read back as leading and trailing numbers, with the length fixed); single mode: the first selected label, undefined (None) exactly when nothing is selected |
| Summary.PlaceholderDescribesSelection | lib/jquery.selectMe.js:359-370 | the placeholder states the native selection: in multiple mode `none`, or the digits of the number of selected options, one space, the `from` word, one space and the digits of the option count; in single mode the first selected option's label, or the previous text when nothing is selected |
| Summary.PlaceholderUpdateIsStable | lib/jquery.selectMe.js:359-370 | recomputing the placeholder a second time changes nothing |
| Summary.UpdatedPlaceholder | lib/jquery.selectMe.js:359-370 | `_updatePlaceholderText`; its meaning is stated by `PlaceholderDescribesSelection` and `PlaceholderUpdateIsStable` |
| Summary.SummaryExamples | lib/jquery.selectMe.js:89-99 | "None selected" for none of 10, "3 from 10" for three of 10, "Berlin" in single mode, undefined in single mode with nothing selected |
| Items.Parse | lib/jquery.selectMe.js:240-273 | one item per direct `<option>` child, in order, with its text, its value and its selectedness as `checked`, displayed and without the class `selected` |
| Items.ParseAppend | lib/jquery.selectMe.js:244-256 | parsing keeps source order: the items of two runs of children are the items of the first followed by those of the second |
| Items.ParseSkipsNonOptions | lib/jquery.selectMe.js:252-255 | a child that is not an `<option>` contributes no item |
| Filter.FilterItems | lib/jquery.selectMe.js:222-233 | a matching item (case-insensitive substring) is shown; a non-matching item is hidden unless it is spared, in which case its display is unchanged; as written an item is spared by the class `selected`, as intended by being checked; nothing but the display changes |
| Filter.EmptyQueryShowsAll | lib/jquery.selectMe.js:226-227 | the empty query shows every item |
| Filter.FilterIdempotent | lib/jquery.selectMe.js:222-233 | filtering twice with one query gives what filtering once gives |
| Filter.CheckedItemIsHiddenWhenNotMatching | lib/jquery.selectMe.js:229-232 | a checked item whose label does not match is hidden when it lacks the class `selected` |
| Filter.CheckedItemsStayVisible | lib/jquery.selectMe.js:229 | with the intended rule filtering never hides a checked item, so if every checked item is displayed before, every one is displayed after |
| Filter.FilterItem | lib/jquery.selectMe.js:226-232 | the filter of one item; stated for all items by `FilterItems` |
| Navigation.FirstIn | lib/jquery.selectMe.js:303 | the first `:visible` item of a range, or none when no item of the range is visible |
| Navigation.LastIn | lib/jquery.selectMe.js:306-310 | the last `:visible` item of a range, or none when no item of the range is visible |
| Navigation.FirstSibling | lib/jquery.selectMe.js:320-321 | the first visible item other than the mark, or none when no other item is visible |
| Navigation.LastSibling | lib/jquery.selectMe.js:306-307 | the last visible item other than the mark, or none when no other item is visible |
| Navigation.Down | lib/jquery.selectMe.js:314-327 | the new mark is a visible item: the first visible one when nothing was marked; otherwise the nearest visible item after the mark, else the first visible sibling (wraparound); none exactly when no other item is visible |
| Navigation.Up | lib/jquery.selectMe.js:298-313 | the new mark is a visible item: the first visible one when nothing was marked; otherwise the nearest visible item before the mark, else the last visible sibling (wraparound); none exactly when no other item is visible |
| Navigation.DownThenUp | lib/jquery.selectMe.js:298-327 | from a visible mark with another visible item, down then up returns to the mark |
| Navigation.UpThenDown | lib/jquery.selectMe.js:298-327 | from a visible mark with another visible item, up then down returns to the mark |
| Navigation.Wraparound | lib/jquery.selectMe.js:306-307 | with A, B, C visible, down from C marks A and up from A marks C |
| Keys.PrintableKeysExactly | lib/jquery.selectMe.js:342-348 | the classifier accepts exactly 8, 48-57, 65-90, 96-111, 186-192 and 219-222 |
| Keys.ControlKeysAreNotPrintable | lib/jquery.selectMe.js:342-348 | Tab, Enter, Escape and the arrows are not printable; backspace is |
| Keys.IsPrintableKey | lib/jquery.selectMe.js:342-348 | the source's comparisons; stated as ranges by `PrintableKeysExactly` |
| Widget.Shown | lib/jquery.selectMe.js:177 | jQuery's `:visible` on an item: its own display is on and the dropdown holding it is open; used by the select-all loop, the unselect-all loop and the arrow keys |
| Widget.Init | lib/jquery.selectMe.js:101-123 | construction keeps the given mode and locale bundle, parses the items from the direct options (one displayed item each, carrying the option's text, value and selectedness), keeps all options on the native side, marks nothing, leaves the dropdown closed, creates an empty search field exactly when search is enabled, and puts the placeholder in sync |
| Widget.Change | lib/jquery.selectMe.js:275-279 | the change handler writes the item's checked state to the options whose `.val()` is its value (the corrected matching of `NativeSelect.Mirror`; see Left out): in multiple mode or when unchecking those options take the state and no other changes; in single mode the last of them becomes the only selected option, and with none of them nothing changes; options keep their text and value; the items, mark, dropdown and search are untouched, and the placeholder is recomputed from the new native state, keeping its text when the summary is undefined |
| Widget.ActivateInput | lib/jquery.selectMe.js:270-279 | activating a checkbox flips the item and mirrors it without clearing any other selection; activating an unchecked radio makes its item the only checked one and its last matching option the only selected one, and with no matching option leaves the options alone; activating a checked radio changes nothing; options keep their text and value; the placeholder is recomputed; the mark, the dropdown and the displays are untouched |
| Widget.ActivateInputKeepsSingleSelection | lib/jquery.selectMe.js:270-276 | in single mode at most one item is checked and at most one option selected after every click |
| Widget.ClickItem | lib/jquery.selectMe.js:270-289 | a user click on an item, on its input or its text, has exactly the effect of activating its input, with the item also made the only marked one; in single mode a click on the checked item only marks it |
| Widget.SetOne | lib/jquery.selectMe.js:178 | one step of select all or unselect all: one item takes the new state and nothing else about the items changes, the options carrying its value follow (by `.val()`, see Left out) and only their selectedness changes, the placeholder is recomputed, and the mark, dropdown, search field and bundle are kept |
| Widget.SetShownFrom | lib/jquery.selectMe.js:176-186 | the `.each` loop of select all and unselect all from item `k` on (with the write-back by `.val()`, see Left out): it keeps the mode, mark, dropdown, search field and bundle, and the numbers of items and options; its effect is stated by `SetShownItems`, `SetShownNative`, `SetShownNoneVisible` and `SetShownPlaceholder` |
| Widget.SelectAll | lib/jquery.selectMe.js:174-180 | in multiple mode every shown item is checked and nothing else about it changes, and every hidden item is kept; every option carrying a shown item's value is selected, every other option is unchanged, and options change only their selectedness; an in-sync placeholder stays in sync; the mark, dropdown, search field and bundle are kept; without `multiple` there is no link and nothing changes |
| Widget.UnselectAll | lib/jquery.selectMe.js:181-187 | in multiple mode every shown item is unchecked and nothing else about it changes, and every hidden item is kept; every option carrying a shown item's value is deselected, every other option is unchanged, and options change only their selectedness; an in-sync placeholder stays in sync; the mark, dropdown, search field and bundle are kept; without `multiple` there is no link and nothing changes |
| Widget.SetShownItems | lib/jquery.selectMe.js:177-179 | select all and unselect all change exactly the visible items, and only their `checked` flag |
| Widget.SetShownNative | lib/jquery.selectMe.js:177-185 | every option carrying the value of a visible item takes the new state; every other option is unchanged |
| Widget.SetShownNoneVisible | lib/jquery.selectMe.js:177-179 | when no item is visible, select all and unselect all change nothing |
| Widget.SetShownPlaceholder | lib/jquery.selectMe.js:177-185 | the placeholder is recomputed when some item was visible; with no visible item nothing changes |
| Widget.SetShownEffect | lib/jquery.selectMe.js:176-186 | the `.each` loop over the shown items changes only their `checked` flags, each to the new state; it changes only the selectedness of exactly the options carrying their values; it keeps an in-sync placeholder in sync and keeps the mark, dropdown, search field and bundle |
| Widget.UnselectAllAbsorbsSelectAll | lib/jquery.selectMe.js:174-187 | unselect all right after select all gives the same state as unselect all alone |
| Widget.ShowSelected | lib/jquery.selectMe.js:188-199 | in multiple mode exactly the checked items are displayed; the search text, the selection and the mark are unchanged; in single mode there is no such link |
| Widget.ShowSelectedIdempotent | lib/jquery.selectMe.js:188-199 | showing selected twice is the same as once |
| Widget.ShowSelectedThenUnselectAllClears | lib/jquery.selectMe.js:181-199 | with the dropdown open, show selected followed by unselect all leaves no item checked |
| Widget.SearchKeyUp | lib/jquery.selectMe.js:217-233 | with search enabled the items are filtered by the typed text, sparing the checked items, and nothing but their display changes (the mark stays); with search disabled nothing happens |
| Widget.OpenDropdown | lib/jquery.selectMe.js:372-379 | opening displays the panel and changes nothing else |
| Widget.CloseDropdown | lib/jquery.selectMe.js:381-385 | closing hides the panel and changes nothing else |
| Widget.PlaceholderClick | lib/jquery.selectMe.js:206-212 | a placeholder click flips the dropdown and nothing else |
| Widget.PlaceholderClickTwice | lib/jquery.selectMe.js:206-212 | two placeholder clicks restore the state |
| Widget.SearchFocus | lib/jquery.selectMe.js:163-167 | focusing the search field opens the dropdown; without a search field nothing happens |
| Widget.DismissKeyDown | lib/jquery.selectMe.js:152-158 | Escape and Tab close the dropdown unconditionally; other keys change nothing |
| Widget.SelectionKeyDown | lib/jquery.selectMe.js:298-335 | an arrow marks a visible item or nothing, and nothing exactly when no item other than the mark is visible; Enter leaves the dropdown closed; other keys change nothing |
| Widget.WrapperKeyDown | lib/jquery.selectMe.js:152-158 | Escape, Tab and Enter leave the dropdown closed; keys other than those and the arrows change nothing |
| Widget.ArrowWhileClosedClearsMark | lib/jquery.selectMe.js:298-327 | with the dropdown closed no item is visible, so an arrow key clears the mark |
| Widget.PrintableKeyDown | lib/jquery.selectMe.js:338-356 | a printable key in the list or the shortcuts clears the mark, empties the search field and opens the dropdown; with search disabled it throws after clearing the mark; other keys and other targets change nothing |
| Widget.SelectedClassIsNeverSetByClicks | lib/jquery.selectMe.js:174-211 | no click handler (item, select all, unselect all, show selected, placeholder) gives any item the class `selected` |
| Widget.SelectedClassIsNeverSetByKeys | lib/jquery.selectMe.js:152-167 | no key or search handler gives any item the class `selected` |
| Widget.ToggleReachesParsedOption | lib/jquery.selectMe.js:248-276 | after construction in multiple mode, toggling an item writes its new state to the native option it was parsed from |

## Findings

| source | as written | input that shows it | evidently intended | confidence | as-written member | corrected member |
|---|---|---|---|---|---|---|
| lib/jquery.selectMe.js:276 | the write-back selects `option[value="v"]`, which matches the `value` attribute only | `<option>Berlin</option>` with no `value` attribute: its item's value is `Berlin` (from `.val()`), and checking it selects no native option, so the placeholder keeps showing the `none` message | every option whose `.val()` is `v` takes the checked state | high; not executed | NativeSelect.MirrorAsWritten, NativeSelect.ValuelessOptionIsNotMirrored | NativeSelect.Mirror, Widget.ToggleReachesParsedOption |
| lib/jquery.selectMe.js:229-232 | the filter spares a non-matching item only when it has the class `selected`, which no code adds | a checked item `Berlin` and the query `par`: the item is hidden, although the comment on the line says selected items are not hidden | a non-matching item that is checked keeps its display | medium; not executed | Filter.CheckedItemIsHiddenWhenNotMatching | Filter.CheckedItemsStayVisible, Widget.SearchKeyUp |

The rest of the model uses the corrected halves: `Widget.Change` and
everything built on it the corrected write-back, `Widget.SearchKeyUp` the
filter that spares checked items.

## Left out

- Widget.Change: writes back with the corrected matching of `NativeSelect.Mirror` (an option's `.val()`), not the attribute selector at lib/jquery.selectMe.js:276, which `NativeSelect.MirrorAsWritten` models; see "## Findings".
- Widget.ActivateInput, Widget.ClickItem, Widget.SetOne, Widget.SetShownFrom, Widget.SetShownNative, Widget.SetShownEffect, Widget.SelectAll and Widget.UnselectAll: they run `Widget.Change`, so they too use the corrected write-back. With an option that has no `value` attribute they select it where the code at lib/jquery.selectMe.js:276 selects nothing.
- Widget.SearchKeyUp: filters with the rule that spares checked items, not the class test at lib/jquery.selectMe.js:230, which `Filter.CheckedItemIsHiddenWhenNotMatching` models; see "## Findings".
- DOM construction, CSS column styling and the stylesheet `<link>` injection (lib/jquery.selectMe.js:47, 125-132, 145-150): rendering only.
- The document-level click-outside listener (lib/jquery.selectMe.js:134-140): host event-loop plumbing. It is attached once per instance and never removed.
- Focus moves and the user callbacks `onLoad`, `onDropdownOpen`, `onDropdownClose`, `onSearch` and `onOptionValueChanged`: they do not change the modelled state. The exception is the focus handler of the search field, which opens the dropdown (`Widget.SearchFocus`).
- `randomString` (lib/jquery.selectMe.js:398-406): it draws from `Math.random` and only names the radio group.
- Summary.SummaryText: models the default `$.fn.selectMe.getSummaryText` (lib/jquery.selectMe.js:89-99). The page may replace it (lib/jquery.selectMe.js:33-35), and then `Summary.PlaceholderDescribesSelection`, `Widget.PlaceholderInSync` and everything stated about the placeholder describe the default formatter only.
- Locale lookup (lib/jquery.selectMe.js:387-392): the bundle is a given `Messages` record. With a missing locale `getMessageSource()` returns `undefined`, and the plugin throws a TypeError where it reads a message: the search field's placeholder, the shortcut links and the summary in multiple mode. In single mode without search no message is read and the plugin works; the failing paths are not modelled.
- Text.Lower: folds only ASCII letters, while `toLowerCase` also folds other scripts; Unicode case mapping is not modelled.
- NativeSelect.EffectiveValue: uses an option's text as is, while jQuery's `.val()` on an option without a `value` attribute strips and collapses the whitespace of its text.
- A value containing `"`, or ending in `\`, makes the selector at lib/jquery.selectMe.js:276 malformed, and jQuery throws. A `\` followed by other characters is read as a CSS escape, so the selector compares against the unescaped value: `a\x` looks for the attribute value `ax`, misses its own option and selects any other option whose value is `ax`. Neither is modelled: `NativeSelect.MirrorAsWritten` compares the attribute with the value exactly.
- The browser's own choice of a default selected option in a single select, and its reset when the last selected option is deselected. Neither is reachable through the plugin's handlers, because a radio only fires `change` when it becomes checked.
- What the browser does with the key event after a printable key has moved focus to the search field (the character usually lands in the field and its `keyup` filters). It is modelled as the separate event `Widget.SearchKeyUp`.
- The browser default action of Enter on the placeholder button when the dropdown is closed, a click that opens it; `Widget.SelectionKeyDown` models only the plugin's handler.
- Selection mode is fixed at construction (`isMultiple` reads the select's `multiple` property on every call; the model assumes it does not change).
- Disposal: the plugin has no teardown, so there is nothing to model.

=== FILE: filter.dfy ===
/** The search field's `keyup` handler: every item whose label contains
    the query (ignoring case) is shown; a non-matching item is hidden
    unless it is spared. The handler means to spare the selected (checked)
    items, but it tests the class `selected`, which no code adds. */
module Filter {
  import opened Text
  import opened Items

  /** The reference meaning of "the item's label matches the query":
      case-insensitive substring containment. */
  ghost predicate LabelMatches(name: string, query: string) {
    Contains(Lower(name), Lower(query))
  }

  /** Which non-matching items keep their display. */
  datatype SpareRule =
    | SparesSelectedClass  // as written: `hasClass('selected')`
    | SparesChecked        // as intended: the checked items

  predicate Spared(item: Item, rule: SpareRule) {
    match rule
    case SparesSelectedClass => item.selectedClass
    case SparesChecked => item.checked
  }

  function FilterItem(item: Item, query: string, rule: SpareRule): Item {
    if IndexOf(Lower(item.name), Lower(query)) > -1 then item.(visible := true)
    else if !Spared(item, rule) then item.(visible := false)
    else item
  }

  function FilterItems(items: seq<Item>, query: string, rule: SpareRule): (r: seq<Item>)
    ensures |r| == |items|
    ensures forall i :: 0 <= i < |r| ==> r[i] == items[i].(visible := r[i].visible)
    ensures forall i :: 0 <= i < |r| && LabelMatches(items[i].name, query) ==> r[i].visible
    ensures forall i :: 0 <= i < |r| && !LabelMatches(items[i].name, query) && !Spared(items[i], rule) ==> !r[i].visible
    ensures forall i :: 0 <= i < |r| && !LabelMatches(items[i].name, query) && Spared(items[i], rule) ==>
      r[i].visible == items[i].visible
  {
    seq(|items|, i requires 0 <= i < |items| => FilterItem(items[i], query, rule))
  }

  /** The empty query shows every item. */
  lemma EmptyQueryShowsAll(items: seq<Item>, rule: SpareRule)
    ensures forall i :: 0 <= i < |items| ==> FilterItems(items, "", rule)[i].visible
  {
    forall i | 0 <= i < |items|
      ensures LabelMatches(items[i].name, "")
    {
      assert OccursAt(Lower(items[i].name), Lower(""), 0);
    }
  }

  /** Filtering twice with the same query gives what filtering once gives. */
  lemma FilterIdempotent(items: seq<Item>, query: string, rule: SpareRule)
    ensures FilterItems(FilterItems(items, query, rule), query, rule) == FilterItems(items, query, rule)
  {
  }

  /** As written: no code adds the class `selected`, so a checked item whose
      label does not match the query is hidden like any other. */
  lemma CheckedItemIsHiddenWhenNotMatching(items: seq<Item>, query: string, i: nat)
    requires i < |items|
    requires items[i].checked && !items[i].selectedClass
    requires !LabelMatches(items[i].name, query)
    ensures !FilterItems(items, query, SparesSelectedClass)[i].visible
    ensures FilterItems(items, query, SparesSelectedClass)[i].checked
  {
  }

  /** As intended: filtering never hides a checked item, so when every
      checked item is displayed before, every one is displayed after. */
  lemma CheckedItemsStayVisible(items: seq<Item>, query: string)
    ensures forall i :: 0 <= i < |items| && items[i].checked && items[i].visible ==>
      FilterItems(items, query, SparesChecked)[i].visible
    ensures (forall i :: 0 <= i < |items| && items[i].checked ==> items[i].visible) ==>
      var r := FilterItems(items, query, SparesChecked);
      forall i :: 0 <= i < |r| && r[i].checked ==> r[i].visible
  {
  }
}

=== FILE: items.dfy ===
/** The widget's list items (one `<li>` with a checkbox or radio per
    option) and their construction from the select's children. */
module Items {
  import opened NativeSelect

  /** One rendered item: its label text, the value its input carries,
      whether the input is checked, whether the `<li>` is displayed, and
      whether it has the class `selected` (which nothing in the plugin ever
      adds). */
  datatype Item = Item(name: string, value: string, checked: bool, visible: bool, selectedClass: bool)

  /** `_initOptions`: each direct <option> child becomes an item, in order,
      with its text, its `.val()` and its selectedness; every other child
      (an <optgroup> with its options, or anything else) is skipped. */
  function Parse(children: seq<Child>): (r: seq<Item>)
    ensures |r| == |DirectOptions(children)|
    ensures forall k :: 0 <= k < |r| ==>
      var o := DirectOptions(children)[k];
      && r[k].name == o.text
      && r[k].value == EffectiveValue(o)
      && r[k].checked == o.selected
      && r[k].visible
      && !r[k].selectedClass
  {
    if |children| == 0 then []
    else
      var rest := Parse(children[1..]);
      match children[0]
      case OptionChild(o) => [Item(o.text, EffectiveValue(o), o.selected, true, false)] + rest
      case GroupChild(_, _) => rest
      case OtherChild(_) => rest
  }

  /** Parsing preserves source order: the items of a concatenation are the
      items of each part, one after the other. */
  lemma {:induction false} ParseAppend(a: seq<Child>, b: seq<Child>)
    ensures Parse(a + b) == Parse(a) + Parse(b)
    decreases |a|
  {
    if |a| > 0 {
      assert (a + b)[1..] == a[1..] + b;
      ParseAppend(a[1..], b);
    } else {
      assert a + b == b;
    }
  }

  /** A child that is not an <option> contributes no item. */
  lemma ParseSkipsNonOptions(a: seq<Child>, c: Child, b: seq<Child>)
    requires !c.OptionChild?
    ensures Parse(a + [c] + b) == Parse(a + b)
  {
    assert Parse([c]) == [] by {
      assert [c][1..] == [];
    }
    calc {
      Parse(a + [c] + b);
      { ParseAppend(a + [c], b); }
      Parse(a + [c]) + Parse(b);
      { ParseAppend(a, [c]); }
      Parse(a) + Parse(b);
      { ParseAppend(a, b); }
      Parse(a + b);
    }
  }
}

=== FILE: keys.dfy ===
/** Key codes the widget reacts to, and the classifier of keys that send
    the user back to the search field. */
module Keys {

  const Backspace := 8
  const Tab := 9
  const Enter := 13
  const Escape := 27
  const ArrowUp := 38
  const ArrowDown := 40

  /** The `valid` test of `_registerKeydownForFocusSearchField`, with the
      comparisons as the plugin writes them. */
  predicate IsPrintableKey(keycode: int) {
    || keycode == 8                       // backspace
    || (keycode > 47 && keycode < 58)     // number keys
    || (keycode > 64 && keycode < 91)     // letter keys
    || (keycode > 95 && keycode < 112)    // numpad keys
    || (keycode > 185 && keycode < 193)   // ;=,-./`
    || (keycode > 218 && keycode < 223)   // [\]'
  }

  /** The printable key codes as closed ranges: 8, 48-57, 65-90, 96-111,
      186-192 and 219-222. */
  const PrintableRanges: seq<(int, int)> := [(8, 8), (48, 57), (65, 90), (96, 111), (186, 192), (219, 222)]

  ghost predicate InPrintableRanges(keycode: int) {
    exists i :: 0 <= i < |PrintableRanges| && PrintableRanges[i].0 <= keycode <= PrintableRanges[i].1
  }

  lemma PrintableKeysExactly(keycode: int)
    ensures IsPrintableKey(keycode) <==> InPrintableRanges(keycode)
  {
    if IsPrintableKey(keycode) {
      var i :=
        if keycode == 8 then 0
        else if keycode < 58 then 1
        else if keycode < 91 then 2
        else if keycode < 112 then 3
        else if keycode < 193 then 4
        else 5;
      assert PrintableRanges[i].0 <= keycode <= PrintableRanges[i].1;
    }
  }

  /** None of the keys with a handler of their own counts as printable. */
  lemma ControlKeysAreNotPrintable()
    ensures !IsPrintableKey(Tab) && !IsPrintableKey(Enter) && !IsPrintableKey(Escape)
    ensures !IsPrintableKey(ArrowUp) && !IsPrintableKey(ArrowDown)
    ensures IsPrintableKey(Backspace)
  {
  }
}

=== FILE: native.dfy ===
/** The native <select> element the widget replaces: its children as the
    page supplies them, the options a descendant search (`find('option')`)
    sees, and the write-back of a widget toggle onto those options. */
module NativeSelect {
  import opened Wrappers

  /** One native <option>: its text, its `value` attribute when present,
      and its selectedness. */
  datatype NativeOption = NativeOption(text: string, valueAttr: Option<string>, selected: bool)

  /** A child of the <select>: an option, an <optgroup> holding options,
      or any other element. */
  datatype Child =
    | OptionChild(option: NativeOption)
    | GroupChild(groupLabel: string, options: seq<NativeOption>)
    | OtherChild(nodeName: string)

  /** What jQuery's `.val()` reports for an option: the `value` attribute,
      or the option's text when the attribute is absent. */
  function EffectiveValue(o: NativeOption): string {
    match o.valueAttr
    case Some(v) => v
    case None => o.text
  }

  /** Every option of the select in document order, including those nested
      in an <optgroup>: what `$select.find('option')` finds. */
  function Flatten(children: seq<Child>): seq<NativeOption> {
    if |children| == 0 then []
    else
      var head := match children[0]
        case OptionChild(o) => [o]
        case GroupChild(_, os) => os
        case OtherChild(_) => [];
      head + Flatten(children[1..])
  }

  /** The options that are direct children of the select, in order. */
  function DirectOptions(children: seq<Child>): (r: seq<NativeOption>)
    ensures |r| <= |children|
  {
    if |children| == 0 then []
    else if children[0].OptionChild? then [children[0].option] + DirectOptions(children[1..])
    else DirectOptions(children[1..])
  }

  /** Each direct option comes from an option child of the select, and
      each option child gives a direct option. */
  lemma {:induction false} DirectOptionsAreOptionChildren(children: seq<Child>)
    ensures forall k :: 0 <= k < |DirectOptions(children)| ==> OptionChild(DirectOptions(children)[k]) in children
    ensures forall c :: c in children && c.OptionChild? ==> c.option in DirectOptions(children)
  {
    if |children| > 0 {
      DirectOptionsAreOptionChildren(children[1..]);
      assert forall c :: c in children[1..] ==> c in children;
      assert forall c :: c in children ==> c == children[0] || c in children[1..];
    }
  }

  /** Each direct option is also found by the descendant search. */
  lemma {:induction false} DirectOptionsAreFound(children: seq<Child>)
    ensures |DirectOptions(children)| <= |Flatten(children)|
    ensures forall k :: 0 <= k < |DirectOptions(children)| ==> DirectOptions(children)[k] in Flatten(children)
  {
    if |children| > 0 {
      DirectOptionsAreFound(children[1..]);
    }
  }

  /** The labels of the selected options, in document order (the array the
      placeholder update collects from `option:selected`). */
  function SelectedLabels(native: seq<NativeOption>): seq<string> {
    if |native| == 0 then []
    else (if native[0].selected then [native[0].text] else []) + SelectedLabels(native[1..])
  }

  /** The number of selected options. */
  function CountSelected(native: seq<NativeOption>): nat {
    if |native| == 0 then 0
    else (if native[0].selected then 1 else 0) + CountSelected(native[1..])
  }

  /** One label is collected per selected option. */
  lemma {:induction false} SelectedLabelsCount(native: seq<NativeOption>)
    ensures |SelectedLabels(native)| == CountSelected(native) <= |native|
    ensures CountSelected(native) == 0 <==> forall k :: 0 <= k < |native| ==> !native[k].selected
  {
    if |native| > 0 {
      SelectedLabelsCount(native[1..]);
      assert forall k :: 1 <= k < |native| ==> native[k] == native[1..][k - 1];
    }
  }

  /** The first collected label is that of the first selected option. */
  lemma {:induction false} SelectedLabelsFirst(native: seq<NativeOption>, k: nat)
    requires k < |native| && native[k].selected
    requires forall m :: 0 <= m < k ==> !native[m].selected
    ensures |SelectedLabels(native)| > 0 && SelectedLabels(native)[0] == native[k].text
  {
    if k > 0 {
      assert forall m :: 0 <= m < k - 1 ==> native[1..][m] == native[m + 1];
      SelectedLabelsFirst(native[1..], k - 1);
    }
  }

  /** The collected labels are exactly the labels of the selected options. */
  lemma {:induction false} SelectedLabelsMembers(native: seq<NativeOption>)
    ensures forall x :: x in SelectedLabels(native) ==>
      exists k :: 0 <= k < |native| && native[k].selected && native[k].text == x
    ensures forall k :: 0 <= k < |native| && native[k].selected ==> native[k].text in SelectedLabels(native)
  {
    if |native| > 0 {
      SelectedLabelsMembers(native[1..]);
      var rest := SelectedLabels(native[1..]);
      assert forall k :: 1 <= k < |native| ==> native[k] == native[1..][k - 1];
      forall x | x in SelectedLabels(native)
        ensures exists k :: 0 <= k < |native| && native[k].selected && native[k].text == x
      {
        if !(native[0].selected && x == native[0].text) {
          assert x in rest;
          var k :| 0 <= k < |native[1..]| && native[1..][k].selected && native[1..][k].text == x;
          assert native[k + 1].selected && native[k + 1].text == x;
        }
      }
    }
  }

  /** How the write-back finds the options to update for a value `v`. */
  datatype MatchRule =
    | ByAttribute  // the selector `option[value="v"]`: the attribute must equal v
    | ByValue      // the option's effective value (attribute or text) equals v

  predicate Matches(o: NativeOption, v: string, rule: MatchRule) {
    match rule
    case ByAttribute => o.valueAttr == Some(v)
    case ByValue => EffectiveValue(o) == v
  }

  /** `option.selected = sel` on option `j`. In a select without `multiple`
      selecting one option deselects all the others (the selectedness rule
      of section 4.10.7 of the WHATWG HTML standard). */
  function SetSelected(native: seq<NativeOption>, j: nat, sel: bool, multiple: bool): (r: seq<NativeOption>)
    requires j < |native|
    ensures |r| == |native|
    ensures forall k :: 0 <= k < |r| ==> r[k] == native[k].(selected := r[k].selected)
    ensures r[j].selected == sel
    ensures multiple || !sel ==> forall k :: 0 <= k < |r| && k != j ==> r[k] == native[k]
    ensures !multiple && sel ==> forall k :: 0 <= k < |r| && k != j ==> !r[k].selected
  {
    if multiple || !sel then native[j := native[j].(selected := sel)]
    else seq(|native|, k requires 0 <= k < |native| => native[k].(selected := k == j))
  }

  /** Option `k` is the last one at or after `from` that matches `v`. */
  ghost predicate IsLastMatch(native: seq<NativeOption>, v: string, rule: MatchRule, from: nat, k: int) {
    && from <= k < |native|
    && Matches(native[k], v, rule)
    && forall m :: k < m < |native| ==> !Matches(native[m], v, rule)
  }

  /** jQuery's `.prop('selected', sel)` on the matched options: the
      property is set on each match in document order. */
  function Propagate(native: seq<NativeOption>, v: string, rule: MatchRule, sel: bool, multiple: bool, from: nat)
    : (r: seq<NativeOption>)
    requires from <= |native|
    ensures |r| == |native|
    ensures forall k :: 0 <= k < |r| ==> r[k] == native[k].(selected := r[k].selected)
    ensures multiple || !sel ==>
      forall k :: 0 <= k < |r| ==>
        r[k].selected == (if from <= k && Matches(native[k], v, rule) then sel else native[k].selected)
    ensures !multiple && sel && (forall k :: from <= k < |native| ==> !Matches(native[k], v, rule)) ==> r == native
    decreases |native| - from
  {
    if from == |native| then native
    else if Matches(native[from], v, rule) then
      var next := SetSelected(native, from, sel, multiple);
      assert forall k :: 0 <= k < |native| ==> Matches(next[k], v, rule) == Matches(native[k], v, rule);
      Propagate(next, v, rule, sel, multiple, from + 1)
    else
      Propagate(native, v, rule, sel, multiple, from + 1)
  }

  /** In a single select, selecting the matches in document order leaves the
      last match as the only selected option. */
  lemma {:induction false} PropagateLastMatchWins(native: seq<NativeOption>, v: string, rule: MatchRule, from: nat)
    requires from <= |native|
    requires exists k :: from <= k < |native| && Matches(native[k], v, rule)
    ensures var r := Propagate(native, v, rule, true, false, from);
      forall k :: 0 <= k < |r| ==> (r[k].selected <==> IsLastMatch(native, v, rule, from, k))
    decreases |native| - from, 1
  {
    if !Matches(native[from], v, rule) {
      LastMatchAfterMiss(native, v, rule, from);
    } else if exists k :: from + 1 <= k < |native| && Matches(native[k], v, rule) {
      LastMatchAfterEarlierMatch(native, v, rule, from);
    } else {
      LastMatchIsHere(native, v, rule, from);
    }
  }

  /** The option at `from` does not match: the last match lies further on. */
  lemma {:induction false} LastMatchAfterMiss(native: seq<NativeOption>, v: string, rule: MatchRule, from: nat)
    requires from < |native| && !Matches(native[from], v, rule)
    requires exists k :: from <= k < |native| && Matches(native[k], v, rule)
    ensures var r := Propagate(native, v, rule, true, false, from);
      forall k :: 0 <= k < |r| ==> (r[k].selected <==> IsLastMatch(native, v, rule, from, k))
    decreases |native| - from, 0
  {
    var r := Propagate(native, v, rule, true, false, from);
    assert r == Propagate(native, v, rule, true, false, from + 1);
    assert exists k :: from + 1 <= k < |native| && Matches(native[k], v, rule);
    PropagateLastMatchWins(native, v, rule, from + 1);
    forall k | 0 <= k < |r|
      ensures r[k].selected <==> IsLastMatch(native, v, rule, from, k)
    {
      assert IsLastMatch(native, v, rule, from + 1, k) <==> IsLastMatch(native, v, rule, from, k);
    }
  }

  /** The option at `from` matches, and so does a later one: selecting it is
      undone by the later selection. */
  lemma {:induction false} LastMatchAfterEarlierMatch(native: seq<NativeOption>, v: string, rule: MatchRule, from: nat)
    requires from < |native| && Matches(native[from], v, rule)
    requires exists k :: from + 1 <= k < |native| && Matches(native[k], v, rule)
    ensures var r := Propagate(native, v, rule, true, false, from);
      forall k :: 0 <= k < |r| ==> (r[k].selected <==> IsLastMatch(native, v, rule, from, k))
    decreases |native| - from, 0
  {
    var next := SetSelected(native, from, true, false);
    PropagateStep(native, v, rule, from);
    var j :| from + 1 <= j < |native| && Matches(native[j], v, rule);
    assert Matches(next[j], v, rule);
    PropagateLastMatchWins(next, v, rule, from + 1);
    LastMatchTransfer(Propagate(next, v, rule, true, false, from + 1), next, native, v, rule, from);
  }

  /** Selecting a matching option keeps the matches where they were, and
      the rest of the propagation continues from the next option. */
  lemma PropagateStep(native: seq<NativeOption>, v: string, rule: MatchRule, from: nat)
    requires from < |native| && Matches(native[from], v, rule)
    ensures var next := SetSelected(native, from, true, false);
      && (forall k :: 0 <= k < |native| ==> Matches(next[k], v, rule) == Matches(native[k], v, rule))
      && Propagate(native, v, rule, true, false, from) == Propagate(next, v, rule, true, false, from + 1)
  {
  }

  /** A description by the last match of `a` from `from + 1` on is one by
      the last match of `b` from `from` on, when `a` and `b` match at the
      same positions and some option after `from` matches. */
  lemma LastMatchTransfer(r: seq<NativeOption>, a: seq<NativeOption>, b: seq<NativeOption>, v: string, rule: MatchRule, from: nat)
    requires |a| == |b|
    requires forall k :: 0 <= k < |a| ==> Matches(a[k], v, rule) == Matches(b[k], v, rule)
    requires exists k :: from + 1 <= k < |b| && Matches(b[k], v, rule)
    requires forall k :: 0 <= k < |r| ==> (r[k].selected <==> IsLastMatch(a, v, rule, from + 1, k))
    ensures forall k :: 0 <= k < |r| ==> (r[k].selected <==> IsLastMatch(b, v, rule, from, k))
  {
    SameMatchesSameLast(a, b, v, rule, from + 1);
    LaterMatchIsLast(b, v, rule, from);
  }

  /** When a later option matches too, the last match from `from` on is the
      last match from `from + 1` on. */
  lemma LaterMatchIsLast(native: seq<NativeOption>, v: string, rule: MatchRule, from: nat)
    requires exists k :: from + 1 <= k < |native| && Matches(native[k], v, rule)
    ensures forall k :: IsLastMatch(native, v, rule, from + 1, k) <==> IsLastMatch(native, v, rule, from, k)
  {
  }

  /** Two option lists that match `v` at the same positions have the same
      last match. */
  lemma SameMatchesSameLast(a: seq<NativeOption>, b: seq<NativeOption>, v: string, rule: MatchRule, from: nat)
    requires |a| == |b|
    requires forall k :: 0 <= k < |a| ==> Matches(a[k], v, rule) == Matches(b[k], v, rule)
    ensures forall k :: IsLastMatch(a, v, rule, from, k) <==> IsLastMatch(b, v, rule, from, k)
  {
  }

  /** The option at `from` is the last match: it ends up the only selected
      option. */
  lemma LastMatchIsHere(native: seq<NativeOption>, v: string, rule: MatchRule, from: nat)
    requires from < |native| && Matches(native[from], v, rule)
    requires forall k :: from + 1 <= k < |native| ==> !Matches(native[k], v, rule)
    ensures var r := Propagate(native, v, rule, true, false, from);
      forall k :: 0 <= k < |r| ==> (r[k].selected <==> IsLastMatch(native, v, rule, from, k))
  {
  }

  /** The write-back exactly as the change handler writes it: the options
      selected by `option[value="v"]` get `selected := sel`. */
  function MirrorAsWritten(native: seq<NativeOption>, v: string, sel: bool, multiple: bool): (r: seq<NativeOption>)
    ensures |r| == |native|
    ensures forall k :: 0 <= k < |r| ==> r[k] == native[k].(selected := r[k].selected)
    ensures multiple || !sel ==>
      forall k :: 0 <= k < |r| ==>
        r[k].selected == (if native[k].valueAttr == Some(v) then sel else native[k].selected)
    ensures !multiple && sel && (forall k :: 0 <= k < |native| ==> native[k].valueAttr != Some(v)) ==> r == native
    ensures !multiple && sel && (exists k :: 0 <= k < |native| && native[k].valueAttr == Some(v)) ==>
      forall k :: 0 <= k < |r| ==> (r[k].selected <==> IsLastMatch(native, v, ByAttribute, 0, k))
  {
    if !multiple && sel && exists k :: 0 <= k < |native| && Matches(native[k], v, ByAttribute) then
      PropagateLastMatchWins(native, v, ByAttribute, 0);
      Propagate(native, v, ByAttribute, sel, multiple, 0)
    else
      Propagate(native, v, ByAttribute, sel, multiple, 0)
  }

  /** The write-back as intended: every option whose value (as `.val()`
      reports it, the same value the widget item was given) equals `v`. */
  function Mirror(native: seq<NativeOption>, v: string, sel: bool, multiple: bool): (r: seq<NativeOption>)
    ensures |r| == |native|
    ensures forall k :: 0 <= k < |r| ==> r[k] == native[k].(selected := r[k].selected)
    ensures multiple || !sel ==>
      forall k :: 0 <= k < |r| ==>
        r[k].selected == (if EffectiveValue(native[k]) == v then sel else native[k].selected)
    ensures !multiple && sel && (forall k :: 0 <= k < |native| ==> EffectiveValue(native[k]) != v) ==> r == native
    ensures !multiple && sel && (exists k :: 0 <= k < |native| && EffectiveValue(native[k]) == v) ==>
      forall k :: 0 <= k < |r| ==> (r[k].selected <==> IsLastMatch(native, v, ByValue, 0, k))
  {
    if !multiple && sel && exists k :: 0 <= k < |native| && Matches(native[k], v, ByValue) then
      PropagateLastMatchWins(native, v, ByValue, 0);
      Propagate(native, v, ByValue, sel, multiple, 0)
    else
      Propagate(native, v, ByValue, sel, multiple, 0)
  }

  /** An option written without a `value` attribute carries its text as its
      value, yet the attribute selector never finds it: toggling its widget
      item leaves the native option unselected, while the intended
      write-back selects it. */
  lemma ValuelessOptionIsNotMirrored()
    ensures var native := [NativeOption("Berlin", None, false)];
      && EffectiveValue(native[0]) == "Berlin"
      && MirrorAsWritten(native, "Berlin", true, true) == native
      && Mirror(native, "Berlin", true, true)[0].selected
  {
  }

  /** In a select without `multiple`, selecting by value keeps at most one
      option selected. */
  lemma MirrorKeepsSingleSelection(native: seq<NativeOption>, v: string)
    requires forall i, j :: 0 <= i < j < |native| ==> !(native[i].selected && native[j].selected)
    ensures var r := Mirror(native, v, true, false);
      forall i, j :: 0 <= i < j < |r| ==> !(r[i].selected && r[j].selected)
  {
  }
}

=== FILE: navigation.dfy ===
/** Arrow-key marking over the list items. `shown[i]` says whether item
    `i` is `:visible`; the mark is at most one item index. */
module Navigation {
  import opened Wrappers

  /** The first shown index in `[lo, hi)`. */
  function FirstIn(shown: seq<bool>, lo: nat, hi: nat): (r: Option<nat>)
    requires lo <= hi <= |shown|
    ensures r.Some? ==> lo <= r.value < hi && shown[r.value]
    ensures r.Some? ==> forall k :: lo <= k < r.value ==> !shown[k]
    ensures r.None? ==> forall k :: lo <= k < hi ==> !shown[k]
    decreases hi - lo
  {
    if lo == hi then None
    else if shown[lo] then Some(lo)
    else FirstIn(shown, lo + 1, hi)
  }

  /** The last shown index in `[lo, hi)`. */
  function LastIn(shown: seq<bool>, lo: nat, hi: nat): (r: Option<nat>)
    requires lo <= hi <= |shown|
    ensures r.Some? ==> lo <= r.value < hi && shown[r.value]
    ensures r.Some? ==> forall k :: r.value < k < hi ==> !shown[k]
    ensures r.None? ==> forall k :: lo <= k < hi ==> !shown[k]
    decreases hi - lo
  {
    if lo == hi then None
    else if shown[hi - 1] then Some(hi - 1)
    else LastIn(shown, lo, hi - 1)
  }

  /** `siblings(':visible').first()`: the first shown index other than `m`. */
  function FirstSibling(shown: seq<bool>, m: nat): (r: Option<nat>)
    requires m < |shown|
    ensures r.Some? ==> r.value < |shown| && r.value != m && shown[r.value]
    ensures r.Some? ==> forall k :: 0 <= k < r.value && k != m ==> !shown[k]
    ensures r.None? ==> forall k :: 0 <= k < |shown| && k != m ==> !shown[k]
  {
    match FirstIn(shown, 0, m)
    case Some(j) => Some(j)
    case None => FirstIn(shown, m + 1, |shown|)
  }

  /** `siblings(':visible').last()`: the last shown index other than `m`. */
  function LastSibling(shown: seq<bool>, m: nat): (r: Option<nat>)
    requires m < |shown|
    ensures r.Some? ==> r.value < |shown| && r.value != m && shown[r.value]
    ensures r.Some? ==> forall k :: r.value < k < |shown| && k != m ==> !shown[k]
    ensures r.None? ==> forall k :: 0 <= k < |shown| && k != m ==> !shown[k]
  {
    match LastIn(shown, m + 1, |shown|)
    case Some(j) => Some(j)
    case None => LastIn(shown, 0, m)
  }

  predicate MarkInRange(shown: seq<bool>, marked: Option<nat>) {
    marked.Some? ==> marked.value < |shown|
  }

  /** Arrow down (key 40). With nothing marked, the first shown item is
      marked; otherwise the nearest shown item after the mark, wrapping to
      the first shown sibling; the mark is cleared when no other item is
      shown. */
  function Down(shown: seq<bool>, marked: Option<nat>): (r: Option<nat>)
    requires MarkInRange(shown, marked)
    ensures r.Some? ==> r.value < |shown| && shown[r.value]
    ensures marked.None? ==> (r.Some? <==> exists k :: 0 <= k < |shown| && shown[k])
    ensures marked.None? && r.Some? ==> forall k :: 0 <= k < r.value ==> !shown[k]
    ensures marked.Some? ==> (r.Some? <==> exists k :: 0 <= k < |shown| && k != marked.value && shown[k])
    ensures marked.Some? && r.Some? && (exists k :: marked.value < k < |shown| && shown[k]) ==>
      marked.value < r.value && forall k :: marked.value < k < r.value ==> !shown[k]
    ensures marked.Some? && r.Some? && (forall k :: marked.value < k < |shown| ==> !shown[k]) ==>
      r.value < marked.value && forall k :: 0 <= k < r.value ==> !shown[k]
  {
    match marked
    case None => FirstIn(shown, 0, |shown|)
    case Some(m) =>
      match FirstIn(shown, m + 1, |shown|)
      case Some(j) => Some(j)
      case None => FirstSibling(shown, m)
  }

  /** Arrow up (key 38). With nothing marked, the first shown item is marked
      (as for arrow down); otherwise the nearest shown item before the mark,
      wrapping to the last shown sibling; the mark is cleared when no other
      item is shown. */
  function Up(shown: seq<bool>, marked: Option<nat>): (r: Option<nat>)
    requires MarkInRange(shown, marked)
    ensures r.Some? ==> r.value < |shown| && shown[r.value]
    ensures marked.None? ==> (r.Some? <==> exists k :: 0 <= k < |shown| && shown[k])
    ensures marked.None? && r.Some? ==> forall k :: 0 <= k < r.value ==> !shown[k]
    ensures marked.Some? ==> (r.Some? <==> exists k :: 0 <= k < |shown| && k != marked.value && shown[k])
    ensures marked.Some? && r.Some? && (exists k :: 0 <= k < marked.value && shown[k]) ==>
      r.value < marked.value && forall k :: r.value < k < marked.value ==> !shown[k]
    ensures marked.Some? && r.Some? && (forall k :: 0 <= k < marked.value ==> !shown[k]) ==>
      marked.value < r.value && forall k :: r.value < k < |shown| ==> !shown[k]
  {
    match marked
    case None => FirstIn(shown, 0, |shown|)
    case Some(m) =>
      match LastIn(shown, 0, m)
      case Some(j) => Some(j)
      case None => LastSibling(shown, m)
  }

  /** Moving down and then up returns to a shown mark, whenever another item
      is shown. */
  lemma DownThenUp(shown: seq<bool>, m: nat)
    requires m < |shown| && shown[m]
    requires exists k :: 0 <= k < |shown| && k != m && shown[k]
    ensures Down(shown, Some(m)).Some?
    ensures Up(shown, Down(shown, Some(m))) == Some(m)
  {
  }

  /** Moving up and then down returns to a shown mark, whenever another item
      is shown. */
  lemma UpThenDown(shown: seq<bool>, m: nat)
    requires m < |shown| && shown[m]
    requires exists k :: 0 <= k < |shown| && k != m && shown[k]
    ensures Up(shown, Some(m)).Some?
    ensures Down(shown, Up(shown, Some(m))) == Some(m)
  {
  }

  /** With items A, B, C all shown, down from C marks A and up from A
      marks C. */
  lemma Wraparound()
    ensures Down([true, true, true], Some(2)) == Some(0)
    ensures Up([true, true, true], Some(0)) == Some(2)
  {
  }
}

=== FILE: summary.dfy ===
/** The closed-state placeholder text: the replaceable summary formatter
    `$.fn.selectMe.getSummaryText` and the update that feeds it from the
    native select. */
module Summary {
  import opened Wrappers
  import opened Text
  import opened NativeSelect

  /** The two entries of the locale bundle the summary reads. */
  datatype Messages = Messages(none: string, from: string)

  /** `getSummaryText(selectedLabels, total, messages, isMultiple)`. */
  function SummaryText(selected: seq<string>, total: nat, msgs: Messages, multiple: bool): Option<string> {
    if multiple then
      if |selected| > 0 then
        Some(CountText(|selected|, msgs.from, total))
      else
        Some(msgs.none)
    else if |selected| > 0 then
      Some(selected[0])
    else
      None
  }

  /** The summary text of multiple mode with at least one selection. */
  function CountText(count: nat, from: string, total: nat): string {
    NatToString(count) + (" " + from + " ") + NatToString(total)
  }

  lemma CountTextLeading(count: nat, from: string, total: nat)
    ensures LeadingNumber(CountText(count, from, total)) == count
  {
    var c := NatToString(count);
    var rest := " " + from + " " + NatToString(total);
    assert CountText(count, from, total) == c + rest;
    LeadingDigitsStopAtSeparator(c, rest);
    ParseNatToString(count);
  }

  lemma CountTextTrailing(count: nat, from: string, total: nat)
    ensures TrailingNumber(CountText(count, from, total)) == total
  {
    TrailingDigitsStopAtSeparator(NatToString(count) + (" " + from + " "), NatToString(total));
    ParseNatToString(total);
  }

  lemma CountTextFrom(count: nat, from: string, total: nat)
    ensures |NatToString(count)| + 1 <= |CountText(count, from, total)|
    ensures from <= CountText(count, from, total)[|NatToString(count)| + 1..]
  {
    var text := CountText(count, from, total);
    var head := NatToString(count) + " ";
    var rest := from + (" " + NatToString(total));
    assert text == head + rest;
    assert text[|head|..] == rest;
  }

  /** The count and the `from` word, and the `from` word and the total,
      are separated by exactly one space each. */
  lemma CountTextSpaces(count: nat, from: string, total: nat)
    ensures var text := CountText(count, from, total);
      && |text| == |NatToString(count)| + |from| + |NatToString(total)| + 2
      && text[|NatToString(count)|] == ' '
      && text[|NatToString(count)| + 1 + |from|] == ' '
  {
  }

  /** The text begins with the rendered count and ends with the rendered
      total. */
  lemma CountTextEnds(count: nat, from: string, total: nat)
    ensures var text := CountText(count, from, total);
      && |NatToString(count)| + |NatToString(total)| <= |text|
      && text[..|NatToString(count)|] == NatToString(count)
      && text[|text| - |NatToString(total)|..] == NatToString(total)
  {
  }

  /** "<count> <from> <total>" can be read back: its leading number is the
      count, followed by one space, the `from` word, one space, and the
      total as its trailing number. */
  lemma CountTextDecodes(count: nat, from: string, total: nat)
    ensures var text := CountText(count, from, total);
      && LeadingNumber(text) == count
      && TrailingNumber(text) == total
      && |text| == |NatToString(count)| + |from| + |NatToString(total)| + 2
      && AllDigits(text[..|NatToString(count)|])
      && text[|NatToString(count)|] == ' '
      && from <= text[|NatToString(count)| + 1..]
      && text[|NatToString(count)| + 1 + |from|] == ' '
      && AllDigits(text[|text| - |NatToString(total)|..])
  {
    CountTextLeading(count, from, total);
    CountTextTrailing(count, from, total);
    CountTextFrom(count, from, total);
    CountTextSpaces(count, from, total);
    CountTextEnds(count, from, total);
  }

  /** In multiple mode the summary is the `none` message when nothing is
      selected, otherwise a text that starts with the digits of the selected
      count, has the `from` word between two single spaces, and ends with
      the digits of the total.
      In single mode it is the first selected label, and undefined (None)
      exactly when nothing is selected. */
  lemma SummaryTextMeaning(selected: seq<string>, total: nat, msgs: Messages, multiple: bool)
    ensures var r := SummaryText(selected, total, msgs, multiple);
      && (multiple ==> r.Some?)
      && (multiple && |selected| == 0 ==> r.value == msgs.none)
      && (multiple && |selected| > 0 ==>
            && LeadingNumber(r.value) == |selected|
            && TrailingNumber(r.value) == total
            && |r.value| == |NatToString(|selected|)| + |msgs.from| + |NatToString(total)| + 2
            && AllDigits(r.value[..|NatToString(|selected|)|])
            && r.value[|NatToString(|selected|)|] == ' '
            && msgs.from <= r.value[|NatToString(|selected|)| + 1..]
            && r.value[|NatToString(|selected|)| + 1 + |msgs.from|] == ' '
            && AllDigits(r.value[|r.value| - |NatToString(total)|..]))
      && (!multiple ==> (r.Some? <==> |selected| > 0))
      && (!multiple && |selected| > 0 ==> r.value == selected[0])
  {
    CountTextDecodes(|selected|, msgs.from, total);
  }

  /** `_updatePlaceholderText`: the summary of the native select's selected
      labels and option count becomes the placeholder's text. jQuery's
      `.text(undefined)` sets nothing, so when the summary is undefined the
      placeholder keeps the text it had. */
  function UpdatedPlaceholder(native: seq<NativeOption>, current: string, msgs: Messages, multiple: bool): string {
    match SummaryText(SelectedLabels(native), |native|, msgs, multiple)
    case Some(t) => t
    case None => current
  }

  /** The placeholder describes the native selection: in multiple mode the
      `none` message, or the number of selected options, the `from` word and
      the number of options; in single
      mode the label of the first selected option, or the previous text. */
  lemma PlaceholderDescribesSelection(native: seq<NativeOption>, current: string, msgs: Messages, multiple: bool)
    ensures var r := UpdatedPlaceholder(native, current, msgs, multiple);
      && (multiple && (forall k :: 0 <= k < |native| ==> !native[k].selected) ==> r == msgs.none)
      && (multiple && (exists k :: 0 <= k < |native| && native[k].selected) ==>
            && LeadingNumber(r) == CountSelected(native)
            && TrailingNumber(r) == |native|
            && |r| == |NatToString(CountSelected(native))| + |msgs.from| + |NatToString(|native|)| + 2
            && AllDigits(r[..|NatToString(CountSelected(native))|])
            && r[|NatToString(CountSelected(native))|] == ' '
            && msgs.from <= r[|NatToString(CountSelected(native))| + 1..]
            && r[|NatToString(CountSelected(native))| + 1 + |msgs.from|] == ' '
            && AllDigits(r[|r| - |NatToString(|native|)|..]))
      && (!multiple && (forall k :: 0 <= k < |native| ==> !native[k].selected) ==> r == current)
      && (!multiple ==>
            forall k :: 0 <= k < |native| && native[k].selected && (forall m :: 0 <= m < k ==> !native[m].selected) ==>
              r == native[k].text)
  {
    var labels := SelectedLabels(native);
    SelectedLabelsCount(native);
    SummaryTextMeaning(labels, |native|, msgs, multiple);
    var r := UpdatedPlaceholder(native, current, msgs, multiple);
    if !multiple {
      forall k | 0 <= k < |native| && native[k].selected && (forall m :: 0 <= m < k ==> !native[m].selected)
        ensures r == native[k].text
      {
        SelectedLabelsFirst(native, k);
      }
    }
  }

  /** Recomputing the placeholder a second time changes nothing. */
  lemma PlaceholderUpdateIsStable(native: seq<NativeOption>, current: string, msgs: Messages, multiple: bool)
    ensures var p := UpdatedPlaceholder(native, current, msgs, multiple);
      UpdatedPlaceholder(native, p, msgs, multiple) == p
  {
  }

  /** The examples the formatter is documented with. */
  lemma SummaryExamples()
    ensures SummaryText([], 10, Messages("None selected", "from"), true) == Some("None selected")
    ensures SummaryText(["a", "b", "c"], 10, Messages("None selected", "from"), true) == Some("3 from 10")
    ensures SummaryText(["Berlin"], 10, Messages("None selected", "from"), false) == Some("Berlin")
    ensures SummaryText([], 10, Messages("None selected", "from"), false) == None
  {
    assert NatToString(3) == "3";
    assert CountText(3, "from", 10) == "3" + (" " + "from" + " ") + "10";
    assert NatToString(10) == NatToString(1) + [DigitChar(0)] == "10";
    var m := Messages("None selected", "from");
    assert "3" + (" " + "from" + " ") + "10" == "3 from 10";
  }
}

=== FILE: text.dfy ===
/** String helpers the plugin borrows from JavaScript: `toLowerCase`,
    `indexOf` on strings, and the decimal rendering of a count. */
module Text {

  /** ASCII case folding of one character, as `String.prototype.toLowerCase`
      does for the Latin letters. */
  function LowerChar(c: char): char {
    if 'A' <= c <= 'Z' then (c as int + 32) as char else c
  }

  function Lower(s: string): string {
    seq(|s|, i requires 0 <= i < |s| => LowerChar(s[i]))
  }

  /** `q` occurs in `s` starting at position `i`. */
  predicate OccursAt(s: string, q: string, i: nat) {
    i + |q| <= |s| && s[i..i + |q|] == q
  }

  /** The reference meaning of "`s` contains `q`". */
  ghost predicate Contains(s: string, q: string) {
    exists i: nat :: i <= |s| && OccursAt(s, q, i)
  }

  /** `s.indexOf(q, from)`: the first position at or after `from` where `q`
      occurs, or -1 when there is none. */
  function IndexOfFrom(s: string, q: string, from: nat): (r: int)
    requires from <= |s|
    ensures r == -1 || (from <= r <= |s| && OccursAt(s, q, r))
    ensures r >= 0 ==> forall i: nat :: from <= i < r ==> !OccursAt(s, q, i)
    ensures r == -1 ==> forall i: nat :: from <= i <= |s| ==> !OccursAt(s, q, i)
    decreases |s| - from
  {
    if from + |q| > |s| then -1
    else if s[from..from + |q|] == q then from
    else IndexOfFrom(s, q, from + 1)
  }

  /** `s.indexOf(q)`; the plugin tests it with `> -1`. */
  function IndexOf(s: string, q: string): (r: int)
    ensures r > -1 <==> Contains(s, q)
    ensures r > -1 ==> OccursAt(s, q, r)
  {
    IndexOfFrom(s, q, 0)
  }

  /** Every string contains the empty string, at position 0. */
  lemma ContainsEmpty(s: string)
    ensures IndexOf(s, "") == 0
  {
  }

  predicate IsDigit(c: char) {
    '0' <= c <= '9'
  }

  predicate AllDigits(s: string) {
    forall i :: 0 <= i < |s| ==> IsDigit(s[i])
  }

  function DigitChar(d: nat): (c: char)
    requires d < 10
  {
    ('0' as int + d) as char
  }

  function DigitValue(c: char): nat
    requires IsDigit(c)
  {
    c as int - '0' as int
  }

  /** The decimal rendering JavaScript uses when a count is concatenated
      with a string (`3 + ' '`): no leading zero except for 0 itself. */
  function NatToString(n: nat): (s: string)
    ensures |s| > 0
    ensures AllDigits(s)
    ensures s[0] == '0' ==> n == 0
    decreases n
  {
    if n < 10 then [DigitChar(n)] else NatToString(n / 10) + [DigitChar(n % 10)]
  }

  /** Reads a string of decimal digits back as a number. */
  function ParseDigits(s: string): nat
    requires AllDigits(s)
  {
    if |s| == 0 then 0 else ParseDigits(s[..|s| - 1]) * 10 + DigitValue(s[|s| - 1])
  }

  /** Reading a rendered count gives the count back. */
  lemma {:induction false} ParseNatToString(n: nat)
    ensures ParseDigits(NatToString(n)) == n
    decreases n
  {
    if n >= 10 {
      var s := NatToString(n);
      assert s[..|s| - 1] == NatToString(n / 10);
      ParseNatToString(n / 10);
    }
  }

  /** The longest prefix of `s` made of digits. */
  function LeadingDigits(s: string): (r: string)
    ensures AllDigits(r)
  {
    if |s| > 0 && IsDigit(s[0]) then [s[0]] + LeadingDigits(s[1..]) else []
  }

  /** The longest suffix of `s` made of digits. */
  function TrailingDigits(s: string): (r: string)
    ensures AllDigits(r)
  {
    if |s| > 0 && IsDigit(s[|s| - 1]) then TrailingDigits(s[..|s| - 1]) + [s[|s| - 1]] else []
  }

  /** The number written at the start of `s` (0 when there is none). */
  function LeadingNumber(s: string): nat {
    ParseDigits(LeadingDigits(s))
  }

  /** The number written at the end of `s` (0 when there is none). */
  function TrailingNumber(s: string): nat {
    ParseDigits(TrailingDigits(s))
  }

  lemma {:induction false} LeadingDigitsStopAtSeparator(d: string, rest: string)
    requires AllDigits(d)
    requires |rest| > 0 && !IsDigit(rest[0])
    ensures LeadingDigits(d + rest) == d
    decreases |d|
  {
    if |d| == 0 {
      assert d + rest == rest;
    } else {
      assert (d + rest)[1..] == d[1..] + rest;
      LeadingDigitsStopAtSeparator(d[1..], rest);
    }
  }

  lemma {:induction false} TrailingDigitsStopAtSeparator(init: string, d: string)
    requires AllDigits(d)
    requires |init| > 0 && !IsDigit(init[|init| - 1])
    ensures TrailingDigits(init + d) == d
    decreases |d|
  {
    if |d| == 0 {
      assert init + d == init;
    } else {
      assert (init + d)[..|init + d| - 1] == init + d[..|d| - 1];
      TrailingDigitsStopAtSeparator(init, d[..|d| - 1]);
    }
  }
}

=== FILE: widget.dfy ===
/** The widget instance: the native select, the rendered items, the mark,
    the dropdown and the search field, and the event handlers that edit
    them. Focus moves and user callbacks have no effect on this state and
    are not represented. */
module Widget {
  import opened Wrappers
  import opened NativeSelect
  import opened Summary
  import opened Items
  import opened Keys
  import Filter
  import Navigation

  datatype WidgetState = WidgetState(
    multiple: bool,              // the select's `multiple` property
    native: seq<NativeOption>,   // every option of the select, in document order
    items: seq<Item>,            // the rendered list items
    marked: Option<nat>,         // the item with class `selectme-marked`
    open: bool,                  // the dropdown panel is displayed
    search: Option<string>,      // the search field's text; None when search is disabled
    placeholder: string,         // the placeholder button's text
    messages: Messages)          // the locale bundle

  /** The mark names an existing item. */
  predicate Valid(st: WidgetState) {
    st.marked.Some? ==> st.marked.value < |st.items|
  }

  /** The placeholder shows what the summary of the native selection gives. */
  predicate PlaceholderInSync(st: WidgetState) {
    st.placeholder == UpdatedPlaceholder(st.native, st.placeholder, st.messages, st.multiple)
  }

  /** No item carries the class `selected`. */
  predicate NoSelectedClass(st: WidgetState) {
    forall i :: 0 <= i < |st.items| ==> !st.items[i].selectedClass
  }

  /** Two item lists differ at most in the `checked` and `visible` flags. */
  predicate SameItems(a: seq<Item>, b: seq<Item>) {
    && |a| == |b|
    && forall i :: 0 <= i < |a| ==>
      a[i].name == b[i].name && a[i].value == b[i].value && a[i].selectedClass == b[i].selectedClass
  }

  /** Item `i` is `:visible`: its own display is on and the dropdown that
      holds it is open. */
  predicate Shown(st: WidgetState, i: nat)
    requires i < |st.items|
  {
    st.open && st.items[i].visible
  }

  function ShownFlags(st: WidgetState): (r: seq<bool>)
    ensures |r| == |st.items|
    ensures forall i :: 0 <= i < |r| ==> r[i] == Shown(st, i)
  {
    seq(|st.items|, i requires 0 <= i < |st.items| => Shown(st, i))
  }

  /** Construction: the items are parsed from the select's children, the
      placeholder is computed, nothing is marked and the dropdown is
      closed (the stylesheet hides it). */
  function Init(children: seq<Child>, multiple: bool, searchEnabled: bool, msgs: Messages): (st: WidgetState)
    ensures Valid(st) && PlaceholderInSync(st) && NoSelectedClass(st)
    ensures st.multiple == multiple && st.messages == msgs
    ensures st.native == Flatten(children)
    ensures st.items == Parse(children)
    ensures |st.items| == |DirectOptions(children)|
    ensures forall k :: 0 <= k < |st.items| ==>
      st.items[k].value == EffectiveValue(DirectOptions(children)[k]) && st.items[k].visible
    ensures st.marked.None? && !st.open
    ensures searchEnabled <==> st.search == Some("")
  {
    var native := Flatten(children);
    PlaceholderUpdateIsStable(native, "", msgs, multiple);
    WidgetState(multiple, native, Parse(children), None, false,
                if searchEnabled then Some("") else None,
                UpdatedPlaceholder(native, "", msgs, multiple), msgs)
  }

  /** The `change` handler of item `i`'s input: the native options carrying
      the item's value take the input's checked state, then the placeholder
      is recomputed. */
  function Change(st: WidgetState, i: nat): (r: WidgetState)
    requires i < |st.items|
    ensures r.items == st.items && r.marked == st.marked && r.open == st.open && r.search == st.search
    ensures r.multiple == st.multiple && r.messages == st.messages
    ensures PlaceholderInSync(r)
    ensures |r.native| == |st.native|
    ensures forall k :: 0 <= k < |r.native| ==> r.native[k] == st.native[k].(selected := r.native[k].selected)
    ensures st.multiple || !st.items[i].checked ==>
      forall k :: 0 <= k < |r.native| ==>
        r.native[k].selected ==
          (if EffectiveValue(st.native[k]) == st.items[i].value then st.items[i].checked else st.native[k].selected)
    ensures !st.multiple && st.items[i].checked && (exists k :: 0 <= k < |st.native| && EffectiveValue(st.native[k]) == st.items[i].value) ==>
      forall k :: 0 <= k < |r.native| ==> (r.native[k].selected <==> IsLastMatch(st.native, st.items[i].value, ByValue, 0, k))
    ensures !st.multiple && st.items[i].checked && (forall k :: 0 <= k < |st.native| ==> EffectiveValue(st.native[k]) != st.items[i].value) ==>
      r.native == st.native
    ensures r.placeholder == UpdatedPlaceholder(r.native, st.placeholder, st.messages, st.multiple)
  {
    var native := Mirror(st.native, st.items[i].value, st.items[i].checked, st.multiple);
    PlaceholderUpdateIsStable(native, st.placeholder, st.messages, st.multiple);
    st.(native := native,
        placeholder := UpdatedPlaceholder(native, st.placeholder, st.messages, st.multiple))
  }

  /** The activation of item `i`'s input, as the browser performs it for a
      click: the checkedness changes and the input's `change` handler runs.
      A checkbox flips. A radio that is not yet checked becomes the only
      checked one of its group (the browser's rule for radios sharing a
      name); activating a checked radio fires no change. The click event
      itself also reaches the label's handler; `ClickItem` adds that. */
  function ActivateInput(st: WidgetState, i: nat): (r: WidgetState)
    requires i < |st.items|
    ensures SameItems(r.items, st.items)
    ensures forall k :: 0 <= k < |r.items| ==> r.items[k].visible == st.items[k].visible
    ensures r.marked == st.marked && r.open == st.open && r.search == st.search
    ensures r.multiple == st.multiple && r.messages == st.messages
    ensures PlaceholderInSync(st) ==> PlaceholderInSync(r)
    ensures |r.native| == |st.native|
    ensures st.multiple ==> r.items[i].checked == !st.items[i].checked
    ensures st.multiple ==> forall k :: 0 <= k < |r.items| && k != i ==> r.items[k].checked == st.items[k].checked
    ensures st.multiple ==>
      forall k :: 0 <= k < |r.native| ==>
        r.native[k].selected ==
          (if EffectiveValue(st.native[k]) == st.items[i].value then r.items[i].checked else st.native[k].selected)
    ensures !st.multiple && st.items[i].checked ==> r == st
    ensures !st.multiple && !st.items[i].checked ==> forall k :: 0 <= k < |r.items| ==> (r.items[k].checked <==> k == i)
    ensures forall k :: 0 <= k < |r.native| ==> r.native[k] == st.native[k].(selected := r.native[k].selected)
    ensures !st.multiple && !st.items[i].checked && (exists k :: 0 <= k < |st.native| && EffectiveValue(st.native[k]) == st.items[i].value) ==>
      forall k :: 0 <= k < |r.native| ==> (r.native[k].selected <==> IsLastMatch(st.native, st.items[i].value, ByValue, 0, k))
    ensures !st.multiple && !st.items[i].checked && (forall k :: 0 <= k < |st.native| ==> EffectiveValue(st.native[k]) != st.items[i].value) ==>
      r.native == st.native
    ensures st.multiple || !st.items[i].checked ==>
      r.placeholder == UpdatedPlaceholder(r.native, st.placeholder, st.messages, st.multiple)
  {
    if st.multiple then
      Change(st.(items := st.items[i := st.items[i].(checked := !st.items[i].checked)]), i)
    else if st.items[i].checked then
      st
    else
      var items := seq(|st.items|, k requires 0 <= k < |st.items| => st.items[k].(checked := k == i));
      Change(st.(items := items), i)
  }

  /** At most one item is checked and at most one option selected. */
  predicate SingleSelection(st: WidgetState) {
    && (forall a, b :: 0 <= a < b < |st.items| ==> !(st.items[a].checked && st.items[b].checked))
    && (forall a, b :: 0 <= a < b < |st.native| ==> !(st.native[a].selected && st.native[b].selected))
  }

  /** In single mode a click keeps the selection exclusive, on the widget
      and on the native select. */
  lemma ActivateInputKeepsSingleSelection(st: WidgetState, i: nat)
    requires i < |st.items| && !st.multiple
    requires SingleSelection(st)
    ensures SingleSelection(ActivateInput(st, i))
  {
  }

  /** A user click on item `i`, on its input or on its text. The input sits
      inside the label (`wrapInner` clones the label together with its click
      handler), so either click reaches the label's handler, which makes the
      item the only marked one, and the input is activated. */
  function ClickItem(st: WidgetState, i: nat): (r: WidgetState)
    requires i < |st.items|
    ensures Valid(r) && r.marked == Some(i)
    ensures r.items[i].checked == (if st.multiple then !st.items[i].checked else true)
    ensures r == ActivateInput(st, i).(marked := Some(i))
    ensures !st.multiple && st.items[i].checked ==> r == st.(marked := Some(i))
    ensures r.open == st.open && r.search == st.search
    ensures |r.items| == |st.items| && forall k :: 0 <= k < |r.items| ==> r.items[k].visible == st.items[k].visible
  {
    ActivateInput(st.(marked := Some(i)), i)
  }

  /** Some native option carries the value of an item at or after `k` that
      is shown. */
  ghost predicate Touched(st: WidgetState, k: nat, o: NativeOption) {
    exists i :: k <= i < |st.items| && Shown(st, i) && EffectiveValue(o) == st.items[i].value
  }

  /** The loop of the select-all and unselect-all links: every shown item
      from index `k` on gets `checked := c` and fires its change handler. */
  function SetShownFrom(st: WidgetState, c: bool, k: nat): (r: WidgetState)
    requires st.multiple && k <= |st.items|
    ensures r.multiple && r.marked == st.marked && r.open == st.open && r.search == st.search
    ensures r.messages == st.messages
    ensures |r.items| == |st.items| && |r.native| == |st.native|
    decreases |st.items| - k
  {
    if k == |st.items| then st
    else if Shown(st, k) then
      SetShownFrom(SetOne(st, c, k), c, k + 1)
    else
      SetShownFrom(st, c, k + 1)
  }

  /** One step of the loop: item `k` is set to `c` and its change handler
      runs. */
  function SetOne(st: WidgetState, c: bool, k: nat): (r: WidgetState)
    requires st.multiple && k < |st.items|
    ensures r.multiple && r.marked == st.marked && r.open == st.open && r.search == st.search
    ensures r.messages == st.messages
    ensures |r.items| == |st.items|
    ensures forall i :: 0 <= i < |st.items| ==> Shown(r, i) == Shown(st, i) && r.items[i].value == st.items[i].value
    ensures r.items[k] == st.items[k].(checked := c)
    ensures forall i :: 0 <= i < |st.items| && i != k ==> r.items[i] == st.items[i]
    ensures |r.native| == |st.native|
    ensures forall j :: 0 <= j < |r.native| ==>
      r.native[j] == st.native[j].(selected := if EffectiveValue(st.native[j]) == st.items[k].value then c else st.native[j].selected)
    ensures r.placeholder == UpdatedPlaceholder(r.native, st.placeholder, st.messages, true)
  {
    Change(st.(items := st.items[k := st.items[k].(checked := c)]), k)
  }

  /** The loop sets the shown items from `k` on, and exactly they, to `c`. */
  lemma {:induction false} SetShownItems(st: WidgetState, c: bool, k: nat)
    requires st.multiple && k <= |st.items|
    ensures var r := SetShownFrom(st, c, k);
      forall i :: 0 <= i < |r.items| ==>
        r.items[i] == (if k <= i && Shown(st, i) then st.items[i].(checked := c) else st.items[i])
    decreases |st.items| - k
  {
    if k < |st.items| {
      var r := SetShownFrom(st, c, k);
      if Shown(st, k) {
        var st1 := SetOne(st, c, k);
        assert r == SetShownFrom(st1, c, k + 1);
        SetShownItems(st1, c, k + 1);
        forall i | 0 <= i < |r.items|
          ensures r.items[i] == (if k <= i && Shown(st, i) then st.items[i].(checked := c) else st.items[i])
        {
          assert Shown(st1, i) == Shown(st, i);
          if i == k {
            assert r.items[i] == st1.items[k];
          } else {
            assert st1.items[i] == st.items[i];
          }
        }
      } else {
        assert r == SetShownFrom(st, c, k + 1);
        SetShownItems(st, c, k + 1);
      }
    }
  }

  /** The loop sets every native option carrying the value of a shown item
      from `k` on to `c` and leaves every other option alone. */
  lemma {:induction false} SetShownNative(st: WidgetState, c: bool, k: nat)
    requires st.multiple && k <= |st.items|
    ensures var r := SetShownFrom(st, c, k);
      forall j :: 0 <= j < |r.native| ==>
        r.native[j] == st.native[j].(selected := if Touched(st, k, st.native[j]) then c else st.native[j].selected)
    decreases |st.items| - k
  {
    if k < |st.items| {
      var r := SetShownFrom(st, c, k);
      if Shown(st, k) {
        var st1 := SetOne(st, c, k);
        assert r == SetShownFrom(st1, c, k + 1);
        SetShownNative(st1, c, k + 1);
        forall j | 0 <= j < |r.native|
          ensures r.native[j] == st.native[j].(selected := if Touched(st, k, st.native[j]) then c else st.native[j].selected)
        {
          TouchedStep(st, c, k, j);
        }
      } else {
        SetShownNative(st, c, k + 1);
        assert forall o :: Touched(st, k, o) <==> Touched(st, k + 1, o);
      }
    }
  }

  lemma TouchedStep(st: WidgetState, c: bool, k: nat, j: nat)
    requires st.multiple && k < |st.items| && Shown(st, k) && j < |st.native|
    ensures var st1 := SetOne(st, c, k);
      Touched(st, k, st.native[j]) <==> (EffectiveValue(st.native[j]) == st.items[k].value || Touched(st1, k + 1, st1.native[j]))
  {
  }

  /** With no visible item from `k` on, the loop changes nothing. */
  lemma {:induction false} SetShownNoneVisible(st: WidgetState, c: bool, k: nat)
    requires st.multiple && k <= |st.items|
    requires forall i :: k <= i < |st.items| ==> !Shown(st, i)
    ensures SetShownFrom(st, c, k) == st
    decreases |st.items| - k
  {
    if k < |st.items| {
      SetShownNoneVisible(st, c, k + 1);
    }
  }

  /** The loop recomputes the placeholder from the final native state when
      at least one change handler ran. */
  lemma {:induction false} SetShownPlaceholder(st: WidgetState, c: bool, k: nat)
    requires st.multiple && k <= |st.items|
    requires exists i :: k <= i < |st.items| && Shown(st, i)
    ensures var r := SetShownFrom(st, c, k);
      r.placeholder == UpdatedPlaceholder(r.native, st.placeholder, st.messages, true)
    decreases |st.items| - k
  {
    var r := SetShownFrom(st, c, k);
    if Shown(st, k) {
      var st1 := SetOne(st, c, k);
      assert r == SetShownFrom(st1, c, k + 1);
      if exists i :: k + 1 <= i < |st.items| && Shown(st, i) {
        var i :| k + 1 <= i < |st.items| && Shown(st, i);
        assert Shown(st1, i);
        SetShownPlaceholder(st1, c, k + 1);
        PlaceholderIgnoresPreviousText(r.native, st1.placeholder, st.placeholder, st.messages);
      } else {
        forall i | k + 1 <= i < |st1.items|
          ensures !Shown(st1, i)
        {
          assert Shown(st1, i) == Shown(st, i);
        }
        SetShownNoneVisible(st1, c, k + 1);
      }
    } else {
      assert r == SetShownFrom(st, c, k + 1);
      var i :| k <= i < |st.items| && Shown(st, i);
      assert k + 1 <= i;
      SetShownPlaceholder(st, c, k + 1);
    }
  }

  /** In multiple mode the summary is always defined, so the text the
      placeholder had before plays no part. */
  lemma PlaceholderIgnoresPreviousText(native: seq<NativeOption>, p1: string, p2: string, msgs: Messages)
    ensures UpdatedPlaceholder(native, p1, msgs, true) == UpdatedPlaceholder(native, p2, msgs, true)
  {
  }

  /** What select all (`c` true) and unselect all (`c` false) do to `st`:
      the shown items take `checked := c` and nothing else about them
      changes, and hidden items keep their state; every option carrying the
      value of a shown item takes `selected := c`, every other option is
      unchanged, and no option changes anything but its selectedness; an
      in-sync placeholder stays in sync; the locale bundle is kept. */
  ghost predicate SetShownResult(st: WidgetState, c: bool, r: WidgetState) {
    && r.multiple == st.multiple && r.marked == st.marked && r.open == st.open && r.search == st.search
    && r.messages == st.messages
    && (PlaceholderInSync(st) ==> PlaceholderInSync(r))
    && SameItems(r.items, st.items)
    && (forall i :: 0 <= i < |st.items| && Shown(st, i) ==> r.items[i] == st.items[i].(checked := c))
    && (forall i :: 0 <= i < |st.items| && !Shown(st, i) ==> r.items[i] == st.items[i])
    && |r.native| == |st.native|
    && (forall j :: 0 <= j < |st.native| ==> r.native[j] == st.native[j].(selected := r.native[j].selected))
    && (forall i, j ::
          (0 <= i < |st.items| && Shown(st, i) && 0 <= j < |st.native|
           && EffectiveValue(st.native[j]) == st.items[i].value) ==> r.native[j].selected == c)
    && (forall j :: 0 <= j < |st.native| && !Touched(st, 0, st.native[j]) ==> r.native[j] == st.native[j])
  }

  /** The loop from the first item has the effect `SetShownResult`. */
  lemma SetShownEffect(st: WidgetState, c: bool)
    requires st.multiple
    ensures SetShownResult(st, c, SetShownFrom(st, c, 0))
  {
    var r := SetShownFrom(st, c, 0);
    SetShownItems(st, c, 0);
    SetShownNative(st, c, 0);
    forall i, j | 0 <= i < |st.items| && Shown(st, i) && 0 <= j < |st.native|
      && EffectiveValue(st.native[j]) == st.items[i].value
      ensures r.native[j].selected == c
    {
      assert Touched(st, 0, st.native[j]);
    }
    if PlaceholderInSync(st) {
      if exists i :: 0 <= i < |st.items| && Shown(st, i) {
        SetShownPlaceholder(st, c, 0);
        PlaceholderUpdateIsStable(r.native, st.placeholder, st.messages, true);
      } else {
        SetShownNoneVisible(st, c, 0);
      }
    }
  }

  /** The "select all" link, which exists in multiple mode only. */
  function SelectAll(st: WidgetState): (r: WidgetState)
    ensures !st.multiple ==> r == st
    ensures st.multiple ==> SetShownResult(st, true, r)
  {
    if st.multiple then SetShownEffect(st, true); SetShownFrom(st, true, 0) else st
  }

  /** The "unselect all" link, which exists in multiple mode only. */
  function UnselectAll(st: WidgetState): (r: WidgetState)
    ensures !st.multiple ==> r == st
    ensures st.multiple ==> SetShownResult(st, false, r)
  {
    if st.multiple then SetShownEffect(st, false); SetShownFrom(st, false, 0) else st
  }

  /** Two states with the same shown items and item values touch the same
      native options. */
  lemma TouchedAgrees(s1: WidgetState, s2: WidgetState, o1: NativeOption, o2: NativeOption)
    requires |s1.items| == |s2.items| && s1.open == s2.open
    requires forall i :: 0 <= i < |s1.items| ==>
      s1.items[i].visible == s2.items[i].visible && s1.items[i].value == s2.items[i].value
    requires EffectiveValue(o1) == EffectiveValue(o2)
    ensures Touched(s1, 0, o1) <==> Touched(s2, 0, o2)
  {
  }

  lemma AbsorbItems(st: WidgetState)
    requires st.multiple
    ensures SetShownFrom(SetShownFrom(st, true, 0), false, 0).items == SetShownFrom(st, false, 0).items
  {
    var s1 := SetShownFrom(st, true, 0);
    SetShownItems(st, true, 0);
    SetShownItems(s1, false, 0);
    SetShownItems(st, false, 0);
    assert forall i :: 0 <= i < |st.items| ==> Shown(s1, i) == Shown(st, i);
  }

  lemma AbsorbNative(st: WidgetState)
    requires st.multiple
    ensures SetShownFrom(SetShownFrom(st, true, 0), false, 0).native == SetShownFrom(st, false, 0).native
  {
    var s1 := SetShownFrom(st, true, 0);
    var a := SetShownFrom(s1, false, 0);
    var b := SetShownFrom(st, false, 0);
    SetShownItems(st, true, 0);
    SetShownNative(st, true, 0);
    SetShownNative(s1, false, 0);
    SetShownNative(st, false, 0);
    forall j | 0 <= j < |st.native|
      ensures a.native[j] == b.native[j]
    {
      TouchedAgrees(s1, st, s1.native[j], st.native[j]);
    }
  }

  /** Unselecting all right after selecting all is the same as unselecting
      all. */
  lemma UnselectAllAbsorbsSelectAll(st: WidgetState)
    ensures UnselectAll(SelectAll(st)) == UnselectAll(st)
  {
    if st.multiple {
      var s1 := SetShownFrom(st, true, 0);
      var a := SetShownFrom(s1, false, 0);
      var b := SetShownFrom(st, false, 0);
      AbsorbItems(st);
      AbsorbNative(st);
      SetShownItems(st, true, 0);
      assert forall i :: 0 <= i < |st.items| ==> Shown(s1, i) == Shown(st, i);
      if exists i :: 0 <= i < |st.items| && Shown(st, i) {
        assert exists i :: 0 <= i < |s1.items| && Shown(s1, i);
        SetShownPlaceholder(s1, false, 0);
        SetShownPlaceholder(st, false, 0);
        PlaceholderIgnoresPreviousText(a.native, s1.placeholder, st.placeholder, st.messages);
      } else {
        SetShownNoneVisible(st, true, 0);
        SetShownNoneVisible(st, false, 0);
      }
      assert a == b;
    }
  }

  /** The "show selected" link (multiple mode only): exactly the checked
      items are displayed; the search text is left as it was. */
  function ShowSelected(st: WidgetState): (r: WidgetState)
    ensures !st.multiple ==> r == st
    ensures st.multiple ==> SameItems(r.items, st.items)
    ensures st.multiple ==> forall i :: 0 <= i < |r.items| ==>
      r.items[i].visible == st.items[i].checked && r.items[i].checked == st.items[i].checked
    ensures r.native == st.native && r.placeholder == st.placeholder
    ensures r.search == st.search && r.marked == st.marked && r.open == st.open
  {
    if st.multiple then
      st.(items := seq(|st.items|, i requires 0 <= i < |st.items| => st.items[i].(visible := st.items[i].checked)))
    else st
  }

  lemma ShowSelectedIdempotent(st: WidgetState)
    ensures ShowSelected(ShowSelected(st)) == ShowSelected(st)
  {
    var once := ShowSelected(st);
    var twice := ShowSelected(once);
    if st.multiple {
      assert forall i :: 0 <= i < |st.items| ==> twice.items[i] == once.items[i];
    }
  }

  /** With the dropdown open, "show selected" followed by "unselect all"
      leaves no item checked. */
  lemma ShowSelectedThenUnselectAllClears(st: WidgetState)
    requires st.multiple && st.open
    ensures forall i :: 0 <= i < |st.items| ==> !UnselectAll(ShowSelected(st)).items[i].checked
  {
  }

  /** The search field's `keyup` with text `text`: the items are filtered
      by it, sparing the checked items as the handler intends. With search
      disabled there is no field and no handler. */
  function SearchKeyUp(st: WidgetState, text: string): (r: WidgetState)
    ensures st.search.None? ==> r == st
    ensures st.search.Some? ==> r.search == Some(text)
    ensures SameItems(r.items, st.items)
    ensures forall i :: 0 <= i < |r.items| ==> r.items[i].checked == st.items[i].checked
    ensures st.search.Some? ==> forall i :: 0 <= i < |r.items| ==>
      (Filter.LabelMatches(st.items[i].name, text) ==> r.items[i].visible)
      && (!Filter.LabelMatches(st.items[i].name, text) && !st.items[i].checked ==> !r.items[i].visible)
      && (!Filter.LabelMatches(st.items[i].name, text) && st.items[i].checked ==> r.items[i].visible == st.items[i].visible)
    ensures r.native == st.native && r.placeholder == st.placeholder
    ensures r.marked == st.marked && r.open == st.open
  {
    if st.search.Some? then
      st.(search := Some(text), items := Filter.FilterItems(st.items, text, Filter.SparesChecked))
    else st
  }

  /** `openDropdown`: the panel is displayed. */
  function OpenDropdown(st: WidgetState): (r: WidgetState)
    ensures r.open && r.(open := st.open) == st
  {
    st.(open := true)
  }

  /** `closeDropdown`: the panel is hidden. */
  function CloseDropdown(st: WidgetState): (r: WidgetState)
    ensures !r.open && r.(open := st.open) == st
  {
    st.(open := false)
  }

  /** A click on the placeholder button toggles the dropdown. */
  function PlaceholderClick(st: WidgetState): (r: WidgetState)
    ensures r.open == !st.open
    ensures r.(open := st.open) == st
  {
    if st.open then CloseDropdown(st) else OpenDropdown(st)
  }

  lemma PlaceholderClickTwice(st: WidgetState)
    ensures PlaceholderClick(PlaceholderClick(st)) == st
  {
  }

  /** Focusing the search field opens the dropdown when the field (and so
      the panel) is not displayed. This is the handler's own test; in a
      browser a field inside a hidden panel cannot take focus, so no focus
      event arrives while the panel is closed and the branch that opens it
      is not reached there. */
  function SearchFocus(st: WidgetState): (r: WidgetState)
    ensures st.search.Some? ==> r.open
    ensures r.(open := st.open) == st
    ensures st.search.None? ==> r == st
  {
    if st.search.Some? && !st.open then OpenDropdown(st) else st
  }

  /** The wrapper's first `keydown` handler: Escape and Tab close the
      dropdown whatever its state. */
  function DismissKeyDown(st: WidgetState, keycode: int): (r: WidgetState)
    ensures keycode == Escape || keycode == Tab ==> r == st.(open := false)
    ensures keycode != Escape && keycode != Tab ==> r == st
  {
    if keycode == Escape || keycode == Tab then CloseDropdown(st) else st
  }

  /** The wrapper's second `keydown` handler: arrows move the mark over the
      shown items; Enter closes the dropdown when it is open. */
  function SelectionKeyDown(st: WidgetState, keycode: int): (r: WidgetState)
    requires Valid(st)
    ensures Valid(r)
    ensures r.items == st.items && r.native == st.native && r.search == st.search && r.placeholder == st.placeholder
    ensures keycode == ArrowUp || keycode == ArrowDown ==>
      r.open == st.open && (r.marked.Some? ==> Shown(st, r.marked.value))
    ensures keycode == ArrowUp || keycode == ArrowDown ==>
      (r.marked.None? <==> forall k :: 0 <= k < |st.items| && Some(k) != st.marked ==> !Shown(st, k))
    ensures keycode == Enter ==> r == st.(open := false)
    ensures keycode != ArrowUp && keycode != ArrowDown && keycode != Enter ==> r == st
  {
    if keycode == ArrowUp then
      st.(marked := Navigation.Up(ShownFlags(st), st.marked))
    else if keycode == ArrowDown then
      st.(marked := Navigation.Down(ShownFlags(st), st.marked))
    else if keycode == Enter then
      if st.open then CloseDropdown(st) else st
    else st
  }

  /** A key pressed anywhere in the widget runs both wrapper handlers, in
      the order they were registered. */
  function WrapperKeyDown(st: WidgetState, keycode: int): (r: WidgetState)
    requires Valid(st)
    ensures Valid(r)
    ensures keycode in {Escape, Tab, Enter} ==> r == st.(open := false)
    ensures !(keycode in {Escape, Tab, Enter, ArrowUp, ArrowDown}) ==> r == st
  {
    SelectionKeyDown(DismissKeyDown(st, keycode), keycode)
  }

  /** With the dropdown closed no item is `:visible`, so an arrow key
      clears the mark. */
  lemma ArrowWhileClosedClearsMark(st: WidgetState, keycode: int)
    requires Valid(st) && !st.open
    requires keycode == ArrowUp || keycode == ArrowDown
    ensures WrapperKeyDown(st, keycode).marked.None?
  {
  }

  /** Where a `keydown` lands: the item list, the shortcut links, or
      elsewhere in the widget. */
  datatype KeyTarget = OptionList | Shortcuts | Elsewhere

  /** The result of a handler: the edited state, or a TypeError raised
      after the edits already made. */
  datatype KeyOutcome = Handled(state: WidgetState) | ThrewTypeError(state: WidgetState)

  /** `_registerKeydownForFocusSearchField` is attached to the item list
      when search is enabled and to the shortcut links in multiple mode. */
  predicate FocusSearchRegistered(st: WidgetState, target: KeyTarget) {
    || (target == OptionList && st.search.Some?)
    || (target == Shortcuts && st.multiple)
  }

  /** A printable key clears every mark, empties the search field and
      focuses it (`SearchFocus`). With search disabled the field does not
      exist and emptying it throws, after the mark was cleared. The item
      list and the shortcut links hold the keyboard focus only while the
      panel is open. */
  function PrintableKeyDown(st: WidgetState, keycode: int, target: KeyTarget): (r: KeyOutcome)
    ensures !FocusSearchRegistered(st, target) || !IsPrintableKey(keycode) ==> r == Handled(st)
    ensures r.state.items == st.items && r.state.native == st.native && r.state.placeholder == st.placeholder
    ensures FocusSearchRegistered(st, target) && IsPrintableKey(keycode) ==>
      r.state.marked.None? && (r.ThrewTypeError? <==> st.search.None?)
    ensures FocusSearchRegistered(st, target) && IsPrintableKey(keycode) && st.search.Some? ==>
      r.state.search == Some("") && r.state.open
  {
    if FocusSearchRegistered(st, target) && IsPrintableKey(keycode) then
      var cleared := st.(marked := None);
      if cleared.search.Some? then Handled(SearchFocus(cleared.(search := Some(""))))
      else ThrewTypeError(cleared)
    else Handled(st)
  }

  /** No click handler ever adds the class `selected`. */
  lemma SelectedClassIsNeverSetByClicks(st: WidgetState, i: nat)
    requires NoSelectedClass(st) && i < |st.items|
    ensures NoSelectedClass(ActivateInput(st, i)) && NoSelectedClass(ClickItem(st, i))
    ensures NoSelectedClass(SelectAll(st)) && NoSelectedClass(UnselectAll(st))
    ensures NoSelectedClass(ShowSelected(st)) && NoSelectedClass(PlaceholderClick(st))
  {
  }

  /** No key handler ever adds the class `selected`. */
  lemma SelectedClassIsNeverSetByKeys(st: WidgetState, text: string, keycode: int, target: KeyTarget)
    requires NoSelectedClass(st) && Valid(st)
    ensures NoSelectedClass(SearchKeyUp(st, text)) && NoSelectedClass(SearchFocus(st))
    ensures NoSelectedClass(WrapperKeyDown(st, keycode))
    ensures NoSelectedClass(PrintableKeyDown(st, keycode, target).state)
  {
    assert WrapperKeyDown(st, keycode).items == st.items;
  }

  /** After construction, toggling item `k` in multiple mode writes the new
      checked state to the option the item was parsed from. */
  lemma ToggleReachesParsedOption(children: seq<Child>, searchEnabled: bool, msgs: Messages, k: nat)
    requires k < |DirectOptions(children)|
    ensures var st := Init(children, true, searchEnabled, msgs);
      var r := ActivateInput(st, k);
      forall j :: 0 <= j < |r.native| && st.native[j] == DirectOptions(children)[k] ==>
        r.native[j].selected == r.items[k].checked
    ensures DirectOptions(children)[k] in Init(children, true, searchEnabled, msgs).native
  {
    DirectOptionsAreFound(children);
  }
}

=== FILE: wrappers.dfy ===
/** The optional value used wherever the plugin may produce `undefined`
    or hold no element (an absent mark, a disabled search field). */
module Wrappers {
  datatype Option<+T> = None | Some(value: T)
}
